=== FILE: README.md ===
# Subtitle burn-in job core, modelled in Dafny

The server accepts a video and a subtitle file, burns the subtitles into the
video with ffmpeg using a chosen font, mails a download link and deletes the
result a day later. This project models the part of `index.js` that makes
decisions:

- **Upload admission** (`UploadRoute`): a request without both uploads gets a
  400. Otherwise the font falls back to `Arial-Bold` and the output name to
  `output.mp4` when they are absent or empty, and the task is enqueued.
- **Job validation** (`Job`, `Registry`): `processVideo` stages the video,
  then the subtitles, then resolves the font in its fixed table, then checks
  the subtitle extension case-insensitively against `.srt`/`.ass`. The first
  failing step ends the job with its error. Only when all four pass is the
  ffmpeg command built from the fixed staging paths, the font path and
  `path.join(__dirname, 'uploads', outputFileName)`.
- **Progress parsing** (`ProgressParser`): a fold over ffmpeg's stderr lines
  with two counters. `frame=\s*(\d+)` sets `processedFrames`.
  `fps=\s*([\d.]+)` sets `totalFrames` to `parseInt` of the capture. After
  every line a percentage `processedFrames / totalFrames * 100` is logged once
  both counters are positive.

Support modules: `Results` (Option/Result), `JsText` (the JavaScript string
semantics involved: `\d`, `\s`, `includes`, ASCII `toLowerCase`, `parseInt`)
and `NodePath` (`path.extname` and `path.join` on POSIX).

The percentage the code logs is not clamped to 100 and may decrease.
`ProgressParser.ProgressNeitherCappedNorMonotone` shows a stream where it
passes 100 and then goes down. Every job uses the same staging paths:
`Job.SubtitlesPath` is fixed per server and ends in `.srt` even for an `.ass`
upload. ffmpeg is started through one shell command string (`Job.CommandLine`),
not an argument vector.

## Model

| member | source | states |
|---|---|---|
| Registry.ResolveFont | index.js:49-61 | exactly `Arial-Bold`, `Juventus Fans Bold` and `Tungsten-Bold` resolve, each to `fonts/` followed by its own `.ttf` file; every other name fails |
| Registry.ResolveFontAsWritten | index.js:49-59 | the font check as written passes the three table names and every name inherited from `Object.prototype`; table names get `fonts/` plus their file |
| Registry.AsWrittenAgreesWithTable | index.js:49-57 | apart from inherited property names, the object-literal lookup and the table agree |
| Registry.InheritedNamesPassFontCheck | index.js:55-59 | every inherited property name (`toString`, `constructor`, `__proto__`, …) passes the check as written yet names no font |
| Registry.SubtitleAccepted | index.js:63-66 | an accepted name has an extension of four characters starting with `.` |
| Registry.SubtitleAcceptedIffSuffix | index.js:63-68 | a subtitle file is accepted iff its final path component has a non-empty stem and ends, in any letter case, in `.srt` or `.ass` |
| Registry.AcceptedAnyCase | index.js:63-68 | a non-empty stem plus a four-character extension that lower-cases to `.srt`/`.ass` is accepted |
| Registry.RejectedOtherSuffix | index.js:63-68 | a name whose last four characters lower-case to anything else is rejected |
| Registry.UpperCaseAccepted | index.js:63-66 | `SUBS.SRT` is accepted |
| Registry.TextRejected | index.js:63-68 | `subs.txt` is rejected |
| Registry.NoExtensionRejected | index.js:63-68 | every name without a dot (such as `subs`) has an empty extension and is rejected |
| NodePath.BasenameFrom | index.js:63 | every character of the final path component, from which `path.extname` takes the extension, occurs in the path |
| Registry.HiddenSrtRejected | index.js:63-68 | a bare `.srt` has no extension for `path.extname` and is rejected |
| JsText.ParseInt | index.js:87 | `parseInt` of a capture is NaN exactly when the capture is empty or does not start with a digit |
| JsText.ParseIntReadsLeadingDigits | index.js:85-87 | for a capture of `[\d.]+`, `parseInt` reads the digits before the first dot and ignores the rest (`29.97` gives 29) |
| JsText.ToLower | index.js:63 | lower-casing keeps the length and folds each character on its own |
| ProgressParser.MatchAt | index.js:79 | a match at a position contains the key there and captures a non-empty run of the group's class |
| ProgressParser.MatchAtShape | index.js:79-85 | `key\s*(k+)` matches at i with capture c whenever the line goes on from i with the key, any white space, the non-empty run c and a character outside the class (or the end) |
| ProgressParser.MatchAtSplits | index.js:79-85 | conversely, every match at i has exactly that shape, so the two lemmas together characterise a match |
| ProgressParser.Search | index.js:79-85 | `line.match` finds the leftmost position where the pattern matches, with that position's capture, and finds nothing exactly when the pattern matches nowhere |
| ProgressParser.FrameReading | index.js:78-83 | a line reports a frame count iff `frame=`, optional white space and a digit occur in it somewhere |
| ProgressParser.RateReading | index.js:84-89 | a line reports a rate iff `fps=`, optional white space and a digit or dot occur in it somewhere |
| ProgressParser.FrameReadingOf | index.js:78-83 | any line `pre + "frame=" + ws + digits + rest` where the pattern matches at no position inside pre (an unmatched `frame=N/A` may occur there), ws is white space, digits is non-empty and rest does not start with a digit reports the value of digits |
| ProgressParser.RateReadingOf | index.js:84-89 | any line `pre + "fps=" + ws + text + rest` of the same shape, text a run of digits and dots, reports parseInt(text) |
| ProgressParser.UnmatchedKeySkipped | index.js:78-83 | `frame=N/A frame=5` reports 5 frames: the unmatched first key is skipped |
| ProgressParser.Apply | index.js:80-88 | a reported frame count overwrites processedFrames and a reported rate overwrites totalFrames; a counter with no reading keeps its value |
| ProgressParser.Feed | index.js:76-89 | a line with neither `frame=` nor `fps=` changes neither counter |
| ProgressParser.Progress | index.js:90-92 | a percentage is logged iff processedFrames > 0 and totalFrames is a positive number (not NaN); it is then positive and equals processedFrames * 100 / totalFrames |
| ProgressParser.Replay | index.js:76-89 | neither counter is computed: after any readings each is its starting value or a value some reading carried |
| ProgressParser.Trace | index.js:76-93 | the handler makes exactly one logging decision per stderr line, in line order (what each one is: ProgressReported) |
| ProgressParser.Read | index.js:78-89 | a line without `frame=` reports no frame count, and a line without `fps=` reports no rate |
| ProgressParser.ReplaySnoc | index.js:76-89 | handling one more line continues from the counters the previous lines left |
| ProgressParser.ReplayHoldsLastReadings | index.js:74-89 | both counters start at 0, persist across lines, and each holds the last reading of its kind |
| ProgressParser.RunHoldsLastReadings | index.js:74-89 | the same for a stream of lines: after it, each counter holds the last reading of its kind in the stream, or 0 |
| ProgressParser.LogIsProgressAfterEachReading | index.js:76-93 | what is logged after line i depends only on the counters after lines 0..i |
| ProgressParser.ProgressReported | index.js:90-92 | progress is logged after line i iff the last frame count and the last rate up to i are both positive, and it is then their ratio times 100 |
| ProgressParser.FrameOnlyLine | index.js:78-83 | `frame=N`, with any white space after `=`, sets processedFrames to N and leaves totalFrames alone |
| ProgressParser.RateOnlyLine | index.js:84-89 | `fps=T`, with any white space after `=`, sets totalFrames to parseInt(T) and leaves processedFrames alone |
| ProgressParser.FrameAndRateLine | index.js:78-89 | one line `frame=N fps=T…` (such as `frame=  123 fps= 25 q=28.0`), with any white space around the numbers and any text after the rate that does not extend it, sets both counters |
| ProgressParser.FractionalRateTruncates | index.js:85-87 | `fps=29.97` sets totalFrames to 29 |
| ProgressParser.NaNRateSuppressesProgress | index.js:84-91 | a rate whose capture starts with `.` is NaN and stops the logging, even after frames and a positive rate were seen |
| ProgressParser.ProgressNeitherCappedNorMonotone | index.js:90-92 | with a fixed rate the logged value passes 100 when frames exceed the rate, and drops when a later frame count is smaller |
| Job.OutputPath | index.js:35 | the output path is never empty and is absolute whenever the server directory is |
| Job.ProcessVideo | index.js:30-72 | the steps taken are a prefix of video move, subtitle move, font check, format check, launch; all but the last succeeded; failure iff ffmpeg is not launched, with the last step's error; on success the command uses the fixed staging paths, the resolved font and the joined output path |
| Job.LaunchIffAllChecksPass | index.js:37-72 | ffmpeg is launched iff both moves succeed, the font resolves and the subtitle format is accepted |
| Job.VideoFailureShortCircuits | index.js:37-41 | a failed video move ends the job at once, whatever the subtitle move would do |
| Job.FontCheckedBeforeFormat | index.js:55-68 | an unsupported font fails the job with the font error even if the format is also bad |
| Job.CallbackMessage | index.js:37-67 | a failed job hands its callback the failed move's own message, else "Selected font is not supported." when the font does not resolve, else "Selected subtitle format is not supported." |
| Job.CommandLine | index.js:70 | the shell command starts with `ffmpeg -i` and the video path, and ends with the output path verbatim |
| Job.PlainOutputNameStaysInUploads | index.js:33-35 | a plain output name under an ordinary server directory gives `<dir>/uploads/<name>` |
| Job.ParentOutputNameLeavesUploads | index.js:35 | an output name `../f` resolves to `<dir>/f`, outside `uploads` |
| NodePath.Extname | index.js:63 | the extension is empty or a `.` followed by no further `.` and no `/`; it is a proper suffix of the final path component, or both are empty |
| NodePath.Join | index.js:35 | the joined path is never empty, and when the first part is non-empty the result is absolute iff that part is |
| NodePath.JoinSplit | index.js:35 | splitting a path on `/` and joining the segments back gives the path |
| NodePath.JoinPlainName | index.js:35 | `path.join` of a clean absolute directory and two plain segments is plain concatenation with `/` |
| NodePath.JoinParentEscapes | index.js:35 | `path.join(dir, sub, "../f")` is `dir/f` |
| UploadRoute.Admit | index.js:153-161 | rejected with 400 and a fixed message iff an upload is missing; otherwise uploads and e-mail pass through, and font and output name are the request's own unless falsy, in which case they are the defaults |
| UploadRoute.AdmitRoundTrip | index.js:159-160 | resubmitting exactly what an admitted task holds enqueues the same task |
| UploadRoute.DefaultsReachFfmpeg | index.js:153-160 | a request with no font and no output name, and with accepted subtitles, runs ffmpeg with `fonts/Arial-Bold.ttf` and writes `<dir>/uploads/output.mp4` |
| UploadRoute.UnsupportedFontFailsInJob | index.js:153-163 | an unsupported font passes the route and fails in the job after both files are staged |

## Findings

| source | as written | input that shows it | evidently intended | confidence | as-written member | corrected member |
|---|---|---|---|---|---|---|
| index.js:49-59 | `fontMapping[selectedFont]` reads a plain object literal, so the names it inherits from `Object.prototype` give truthy values and pass the check | font `toString` (or `constructor`, `__proto__`, `valueOf`, …) passes; ffmpeg runs with font path `fonts/function toString() { [native code] }` | only the three table names resolve; every other name fails with "Selected font is not supported." | high (language semantics); not executed | Registry.ResolveFontAsWritten, Registry.InheritedNamesPassFontCheck | Registry.ResolveFont |

`Job.ProcessVideo` uses the corrected `Registry.ResolveFont`; the members that depend on it are listed under "## Left out".

## Left out

- Express wiring, static serving, sending responses and the `/queueNumber` route (index.js:12-22, 169-186): HTTP plumbing. This includes the completion callback's 500/200 answer.
- `async.queue` with concurrency 1 (index.js:25-27, 163): its FIFO order and one-at-a-time promise belong to a library outside this model.
- `videoFile.mv` and `subtitlesFile.mv` (index.js:37-47): they are file moves. Their outcome is a parameter (`Job.MoveOutcome`).
- `exec`, the readline stream and the process events (index.js:70-72, 76, 96-101): subprocess I/O. The model stops at the built `Job.Invocation`/`Job.CommandLine` and feeds the parser a given sequence of lines. The exit handler ignores the exit code and uses a `req` that is not in scope (index.js:105). Both are runtime defects of that plumbing and are not modelled.
- Mail (index.js:107-131) and the 24-hour deletion (index.js:134-142): network and timer/filesystem work.
- `toFixed(2)` and console logging (index.js:92): they add nothing checkable.
- Job.ProcessVideo: uses the corrected font lookup `Registry.ResolveFont`. For a name inherited from `Object.prototype` (`toString`, `constructor`, …) the code as written passes the font check and launches ffmpeg with a meaningless font path, where the model fails with `UnsupportedFont`; `Registry.ResolveFontAsWritten` and `Registry.InheritedNamesPassFontCheck` state the behaviour as written.
- Job.LaunchIffAllChecksPass: stated for the corrected font lookup, so for inherited property names it promises failure where the code launches ffmpeg (see Job.ProcessVideo above).
- Job.FontCheckedBeforeFormat: its premise is the corrected lookup failing, which includes inherited property names that the code as written lets through to the format check.
- UploadRoute.UnsupportedFontFailsInJob: stated for the corrected font lookup; an inherited property name as the font passes the code's check instead of failing.
- Job.CallbackMessage: stated for the corrected font lookup. For an inherited property name as the font and a rejected subtitle name, the code as written passes the font check and calls back with "Selected subtitle format is not supported.", where the lemma gives the font message (see Job.ProcessVideo above).
- ProgressParser.Progress: the percentage is an exact `real`, not an IEEE double, so rounding is not modelled.
- JsText.ParseInt: modelled only for strings of digits and dots, which is every capture of `[\d.]+`; leading white space, a sign or a `0x` prefix are outside the definition. Values are unbounded integers. In JavaScript a run of more than about 15 significant digits loses precision, and a run longer than about 309 digits gives Infinity.
- JsText.DecimalValue: the frame count is an unbounded integer for the same reason.
- JsText.ToLower: folds ASCII letters only. No non-ASCII character lower-cases to `.`, `s`, `r`, `t` or `a`, so the `.srt`/`.ass` verdict is unaffected.
- NodePath: Node's own source for `path` is not reproduced. `NodePath` models `extname`, `join` and `normalize` from their documented POSIX behaviour; Windows path rules are not modelled.
- Form fields that arrive as arrays (a repeated field) are not modelled. A field is a string or absent.
- Of an uploaded file, only its name is modelled.

=== FILE: job.dfy ===
/**
 * The decision logic of processVideo (index.js:30-72): stage the video,
 * stage the subtitles, resolve the font, check the subtitle format, and
 * only then build the ffmpeg command. The first step that fails ends the
 * job with its error and nothing after it happens.
 */
module Job {
  import opened Results
  import Registry
  import NodePath

  /** An uploaded file as the job sees it: only its original name matters. */
  datatype UploadedFile = UploadedFile(name: string)

  /** What the upload route pushes onto the queue. */
  datatype Task = Task(
    videoFile: UploadedFile,
    subtitlesFile: UploadedFile,
    selectedFont: string,
    outputFileName: string,
    userEmail: Option<string>)

  /** How the `mv` of an upload to its staging path ended. */
  datatype MoveOutcome = Moved | MoveFailed(message: string)

  /** Why a job ended before ffmpeg was started. */
  datatype JobError = StagingFailed(message: string) | UnsupportedFont | UnsupportedSubtitleFormat

  /** The message of the error the job's callback receives. */
  function ErrorMessage(e: JobError): string {
    match e
    case StagingFailed(m) => m
    case UnsupportedFont => Registry.UnsupportedFontMessage
    case UnsupportedSubtitleFormat => Registry.UnsupportedFormatMessage
  }

  /** The steps of a job, in the order the code takes them. */
  datatype Step = MoveVideo | MoveSubtitles | CheckFont | CheckSubtitleFormat | LaunchFfmpeg

  const Pipeline: seq<Step> := [MoveVideo, MoveSubtitles, CheckFont, CheckSubtitleFormat, LaunchFfmpeg]

  /** The paths and font that go into the ffmpeg command. */
  datatype Invocation = Invocation(videoPath: string, subtitlesPath: string, fontPath: string, outputPath: string)

  /** The steps a job took, and how it ended. */
  datatype Outcome = Outcome(steps: seq<Step>, result: Result<Invocation, JobError>)

  /** Where the video is staged; the same for every job of the server. */
  function VideoPath(serverDir: string): string {
    serverDir + "/uploads/video.mp4"
  }

  /** Where the subtitles are staged, whatever their format. */
  function SubtitlesPath(serverDir: string): string {
    serverDir + "/uploads/subtitles.srt"
  }

  /**
   * `path.join(__dirname, 'uploads', outputFileName)`: never empty, and
   * absolute whenever the server directory is.
   */
  function OutputPath(serverDir: string, outputFileName: string): (p: string)
    ensures |p| > 0
    ensures |serverDir| > 0 && serverDir[0] == '/' ==> p[0] == '/'
  {
    NodePath.Join([serverDir, "uploads", outputFileName])
  }

  /** The error a step fails with for this task and these staging outcomes, if it fails. */
  function StepError(step: Step, task: Task, videoMove: MoveOutcome, subtitlesMove: MoveOutcome): Option<JobError> {
    match step
    case MoveVideo => if videoMove.MoveFailed? then Some(StagingFailed(videoMove.message)) else None
    case MoveSubtitles => if subtitlesMove.MoveFailed? then Some(StagingFailed(subtitlesMove.message)) else None
    case CheckFont => if Registry.ResolveFont(task.selectedFont).None? then Some(UnsupportedFont) else None
    case CheckSubtitleFormat =>
      if !Registry.SubtitleAccepted(task.subtitlesFile.name) then Some(UnsupportedSubtitleFormat) else None
    case LaunchFfmpeg => None
  }

  /**
   * processVideo up to the launch of ffmpeg. The steps taken are a prefix
   * of the pipeline; every step but the last one taken succeeded; the job
   * fails exactly when it stops short of launching ffmpeg, and then with
   * the error of its last step; on success the command uses the fixed
   * staging paths, the resolved font and the joined output path.
   */
  function ProcessVideo(task: Task, serverDir: string, videoMove: MoveOutcome, subtitlesMove: MoveOutcome): (o: Outcome)
    ensures |o.steps| > 0 && o.steps <= Pipeline
    ensures forall k | 0 <= k < |o.steps| - 1 :: StepError(o.steps[k], task, videoMove, subtitlesMove).None?
    ensures o.result.Success? <==> LaunchFfmpeg in o.steps
    ensures o.result.Failure? ==>
              StepError(o.steps[|o.steps| - 1], task, videoMove, subtitlesMove) == Some(o.result.error)
    ensures o.result.Success? ==>
              && o.result.value.videoPath == VideoPath(serverDir)
              && o.result.value.subtitlesPath == SubtitlesPath(serverDir)
              && Registry.ResolveFont(task.selectedFont) == Some(o.result.value.fontPath)
              && o.result.value.outputPath == OutputPath(serverDir, task.outputFileName)
  {
    match videoMove
    case MoveFailed(m) => Outcome([MoveVideo], Failure(StagingFailed(m)))
    case Moved =>
      match subtitlesMove
      case MoveFailed(m) => Outcome([MoveVideo, MoveSubtitles], Failure(StagingFailed(m)))
      case Moved =>
        match Registry.ResolveFont(task.selectedFont)
        case None => Outcome([MoveVideo, MoveSubtitles, CheckFont], Failure(UnsupportedFont))
        case Some(fontPath) =>
          if !Registry.SubtitleAccepted(task.subtitlesFile.name) then
            Outcome([MoveVideo, MoveSubtitles, CheckFont, CheckSubtitleFormat], Failure(UnsupportedSubtitleFormat))
          else
            var invocation := Invocation(
              VideoPath(serverDir), SubtitlesPath(serverDir), fontPath, OutputPath(serverDir, task.outputFileName));
            Outcome(Pipeline, Success(invocation))
  }

  /** A job builds and runs the ffmpeg command exactly when no step before the launch fails. */
  lemma LaunchIffAllChecksPass(task: Task, serverDir: string, videoMove: MoveOutcome, subtitlesMove: MoveOutcome)
    ensures ProcessVideo(task, serverDir, videoMove, subtitlesMove).result.Success? <==>
              && videoMove.Moved?
              && subtitlesMove.Moved?
              && Registry.ResolveFont(task.selectedFont).Some?
              && Registry.SubtitleAccepted(task.subtitlesFile.name)
  {
  }

  /** When the video cannot be staged, nothing else is attempted: the subtitles' fate does not matter. */
  lemma VideoFailureShortCircuits(task: Task, serverDir: string, m: string, s1: MoveOutcome, s2: MoveOutcome)
    ensures ProcessVideo(task, serverDir, MoveFailed(m), s1) == ProcessVideo(task, serverDir, MoveFailed(m), s2)
    ensures ProcessVideo(task, serverDir, MoveFailed(m), s1).steps == [MoveVideo]
  {
  }

  /**
   * An unsupported font fails the job even when the subtitle format is
   * unsupported too: the font is checked first.
   */
  lemma FontCheckedBeforeFormat(task: Task, serverDir: string)
    requires Registry.ResolveFont(task.selectedFont).None?
    ensures ProcessVideo(task, serverDir, Moved, Moved) == Outcome([MoveVideo, MoveSubtitles, CheckFont], Failure(UnsupportedFont))
  {
  }

  /**
   * The message the callback receives when a job fails: the staging error's
   * own message for a failed move, and the fixed texts for the font and the
   * subtitle format.
   */
  lemma CallbackMessage(task: Task, serverDir: string, videoMove: MoveOutcome, subtitlesMove: MoveOutcome)
    ensures var o := ProcessVideo(task, serverDir, videoMove, subtitlesMove);
            o.result.Failure? ==>
              ErrorMessage(o.result.error) ==
                if videoMove.MoveFailed? then videoMove.message
                else if subtitlesMove.MoveFailed? then subtitlesMove.message
                else if Registry.ResolveFont(task.selectedFont).None? then "Selected font is not supported."
                else "Selected subtitle format is not supported."
  {
  }

  /** The shell command line processVideo hands to `exec`. */
  function CommandLine(inv: Invocation): (cmd: string)
    ensures "ffmpeg -i " + inv.videoPath <= cmd
    ensures |cmd| > |inv.outputPath| && cmd[|cmd| - |inv.outputPath|..] == inv.outputPath
  {
    var head := "ffmpeg -i " + inv.videoPath;
    var middle := " -vf \"subtitles=" + inv.subtitlesPath + ":force_style='Fontfile=" + inv.fontPath + "'\" ";
    var cmd := head + middle + inv.outputPath;
    assert head <= cmd;
    assert cmd[|cmd| - |inv.outputPath|..] == inv.outputPath;
    cmd
  }

  /**
   * For a server directory with an ordinary absolute path, a plain output
   * name lands in its `uploads` directory.
   */
  lemma PlainOutputNameStaysInUploads(serverDir: string, outputFileName: string)
    requires NodePath.CleanAbsolute(serverDir) && NodePath.PlainSegment(outputFileName)
    ensures OutputPath(serverDir, outputFileName) == serverDir + "/uploads/" + outputFileName
  {
    NodePath.JoinPlainName(serverDir, "uploads", outputFileName);
  }

  /**
   * `path.join` resolves "..", so an output name "../f" is written to, and
   * later deleted from, the server directory itself rather than `uploads`.
   */
  lemma ParentOutputNameLeavesUploads(serverDir: string, f: string)
    requires NodePath.CleanAbsolute(serverDir) && NodePath.PlainSegment(f)
    ensures OutputPath(serverDir, "../" + f) == serverDir + "/" + f
  {
    NodePath.JoinParentEscapes(serverDir, "uploads", f);
  }
}

=== FILE: js_text.dfy ===
/**
 * The pieces of JavaScript string semantics the job pipeline relies on:
 * the `\d` and `\s` character classes of a regular expression without the
 * `u` flag, `String.prototype.includes`, `String.prototype.toLowerCase`
 * (for the characters that matter here) and `parseInt`.
 */
module JsText {

  /** `\d`: the ASCII decimal digits only. */
  predicate IsDigit(c: char) {
    '0' <= c <= '9'
  }

  /** `\s`: the WhiteSpace and LineTerminator code points of ECMAScript. */
  predicate IsSpace(c: char) {
    || c == ' '
    || '\t' <= c <= '\r'
    || c == '\U{00A0}'
    || c == '\U{1680}'
    || '\U{2000}' <= c <= '\U{200A}'
    || c == '\U{2028}'
    || c == '\U{2029}'
    || c == '\U{202F}'
    || c == '\U{205F}'
    || c == '\U{3000}'
    || c == '\U{FEFF}'
  }

  predicate AllDigits(s: string) {
    forall i | 0 <= i < |s| :: IsDigit(s[i])
  }

  function DigitValue(c: char): (d: nat)
    requires IsDigit(c)
    ensures d < 10
  {
    (c as int) - ('0' as int)
  }

  /** The number a string of decimal digits denotes (leading zeros allowed). */
  function DecimalValue(s: string): nat
    requires AllDigits(s)
  {
    if |s| == 0 then 0 else 10 * DecimalValue(s[..|s| - 1]) + DigitValue(s[|s| - 1])
  }

  /** Length of the longest prefix of `s` made of digits. */
  function DigitRun(s: string): (n: nat)
    ensures n <= |s|
    ensures AllDigits(s[..n])
    ensures n < |s| ==> !IsDigit(s[n])
  {
    if |s| == 0 || !IsDigit(s[0]) then 0 else 1 + DigitRun(s[1..])
  }

  /** Length of the longest prefix of `s` made of `\s` characters. */
  function SpaceRun(s: string): (n: nat)
    ensures n <= |s|
    ensures forall i | 0 <= i < n :: IsSpace(s[i])
    ensures n < |s| ==> !IsSpace(s[n])
  {
    if |s| == 0 || !IsSpace(s[0]) then 0 else 1 + SpaceRun(s[1..])
  }

  predicate AllSpace(s: string) {
    forall i | 0 <= i < |s| :: IsSpace(s[i])
  }

  /** A run of white space followed by a non-space (or nothing) is exactly the leading space run. */
  lemma {:induction false} SpaceRunOfSpacePrefix(ws: string, rest: string)
    requires AllSpace(ws)
    requires |rest| == 0 || !IsSpace(rest[0])
    ensures SpaceRun(ws + rest) == |ws|
    decreases |ws|
  {
    if |ws| == 0 {
      assert ws + rest == rest;
    } else {
      assert (ws + rest)[1..] == ws[1..] + rest;
      SpaceRunOfSpacePrefix(ws[1..], rest);
    }
  }

  /** A JavaScript number as far as `parseInt` can produce one from digits. */
  datatype Number = Int(n: nat) | NaN {

    /** `this > 0`; false for NaN, as every comparison with NaN is. */
    predicate Positive() {
      Int? && n > 0
    }
  }

  /**
   * `parseInt(s)` for a string of digits and dots, which is every string the
   * rate's regular expression can capture: the value of the leading run of
   * digits, NaN when there is none. Other strings (leading white space, a
   * sign, a "0x" prefix) are outside what this definition describes.
   */
  function ParseInt(s: string): (r: Number)
    ensures r.NaN? <==> |s| == 0 || !IsDigit(s[0])
  {
    var k := DigitRun(s);
    if k == 0 then NaN else Int(DecimalValue(s[..k]))
  }

  /**
   * On a string of digits and dots, `parseInt` reads the digits up to the
   * first dot and ignores the rest.
   */
  lemma ParseIntReadsLeadingDigits(digits: string, rest: string)
    requires |digits| > 0 && AllDigits(digits)
    requires |rest| == 0 || !IsDigit(rest[0])
    requires forall i | 0 <= i < |rest| :: IsDigit(rest[i]) || rest[i] == '.'
    ensures ParseInt(digits + rest) == Int(DecimalValue(digits))
  {
    var s := digits + rest;
    DigitRunOfDigitsPrefix(digits, rest);
    assert s[..|digits|] == digits;
  }

  lemma {:induction false} DigitRunOfDigitsPrefix(digits: string, rest: string)
    requires AllDigits(digits)
    requires |rest| == 0 || !IsDigit(rest[0])
    ensures DigitRun(digits + rest) == |digits|
    decreases |digits|
  {
    if |digits| == 0 {
      assert digits + rest == rest;
    } else {
      assert (digits + rest)[1..] == digits[1..] + rest;
      DigitRunOfDigitsPrefix(digits[1..], rest);
    }
  }

  /** `s.includes(t)`: `t` occurs in `s` at some position. */
  predicate Includes(s: string, t: string) {
    exists i | 0 <= i <= |s| :: OccursAt(s, i, t)
  }

  predicate OccursAt(s: string, i: nat, t: string) {
    i + |t| <= |s| && s[i..i + |t|] == t
  }

  function ToLowerChar(c: char): char {
    if 'A' <= c <= 'Z' then (c as int + 32) as char else c
  }

  /**
   * `toLowerCase` on the ASCII letters. The model only compares the result
   * with ASCII text made of '.', 'a', 's', 'r' and 't', and no non-ASCII
   * character lower-cases to any of those, so folding ASCII alone decides
   * the same comparisons.
   */
  function ToLower(s: string): (r: string)
    ensures |r| == |s|
    ensures forall i | 0 <= i < |s| :: r[i] == ToLowerChar(s[i])
  {
    if |s| == 0 then "" else [ToLowerChar(s[0])] + ToLower(s[1..])
  }
}

=== FILE: node_path.dfy ===
/**
 * The POSIX flavour of Node's `path` module as the pipeline uses it:
 * `path.extname` for the subtitle check and `path.join` for the output
 * path. Node's own sources are not part of this model; the functions
 * follow the module's documented POSIX behaviour.
 */
module NodePath {

  /** The segments of `s` between '/' separators; `Split("/a//b") == ["", "a", "", "b"]`. */
  function Split(s: string): (r: seq<string>)
    ensures |r| >= 1
    ensures forall k | 0 <= k < |r| :: '/' !in r[k]
    decreases |s|
  {
    if |s| == 0 then [""]
    else if s[0] == '/' then [""] + Split(s[1..])
    else
      var rest := Split(s[1..]);
      [[s[0]] + rest[0]] + rest[1..]
  }

  /** Segments glued back together with '/'. */
  function JoinSegments(segs: seq<string>): string
    decreases |segs|
  {
    if |segs| == 0 then ""
    else if |segs| == 1 then segs[0]
    else segs[0] + "/" + JoinSegments(segs[1..])
  }

  /** Splitting on '/' loses nothing: gluing the segments back gives the path. */
  lemma {:induction false} JoinSplit(s: string)
    ensures JoinSegments(Split(s)) == s
    decreases |s|
  {
    if |s| == 0 {
    } else if s[0] == '/' {
      JoinSplit(s[1..]);
      assert s == "/" + s[1..];
    } else {
      var rest := Split(s[1..]);
      JoinSplit(s[1..]);
      assert s == [s[0]] + s[1..];
      if |rest| > 1 {
        assert JoinSegments(rest) == rest[0] + "/" + JoinSegments(rest[1..]);
      }
    }
  }

  /** Splitting at a separator splits the segment lists: `Split(a + "/" + b) == Split(a) + Split(b)`. */
  lemma {:induction false} SplitAtSeparator(a: string, b: string)
    ensures Split(a + "/" + b) == Split(a) + Split(b)
    decreases |a|
  {
    if |a| == 0 {
      assert a + "/" + b == "/" + b;
      assert ("/" + b)[1..] == b;
    } else {
      assert (a + "/" + b)[1..] == a[1..] + "/" + b;
      SplitAtSeparator(a[1..], b);
    }
  }

  /** A segment that normalisation keeps as it is. */
  predicate PlainSegment(seg: string) {
    seg != "" && seg != "." && seg != ".." && '/' !in seg
  }

  /**
   * Normalisation of the segment list, left to right: empty and "." segments
   * vanish, ".." removes the segment before it, and a ".." with nothing
   * left to remove is kept only in a relative path (`allowAboveRoot`).
   */
  function Resolve(stack: seq<string>, segs: seq<string>, allowAboveRoot: bool): seq<string>
    decreases |segs|
  {
    if |segs| == 0 then stack
    else
      var seg := segs[0];
      var stack' :=
        if seg == "" || seg == "." then stack
        else if seg == ".." then
          if |stack| > 0 && stack[|stack| - 1] != ".." then stack[..|stack| - 1]
          else if allowAboveRoot then stack + [".."]
          else stack
        else stack + [seg];
      Resolve(stack', segs[1..], allowAboveRoot)
  }

  /** Plain segments are kept in order. */
  lemma {:induction false} ResolvePlain(stack: seq<string>, segs: seq<string>, allowAboveRoot: bool)
    requires forall k | 0 <= k < |segs| :: PlainSegment(segs[k])
    ensures Resolve(stack, segs, allowAboveRoot) == stack + segs
    decreases |segs|
  {
    if |segs| > 0 {
      ResolvePlain(stack + [segs[0]], segs[1..], allowAboveRoot);
      assert stack + [segs[0]] + segs[1..] == stack + segs;
    }
  }

  /** Resolving a concatenation resolves the second part on the first part's result. */
  lemma {:induction false} ResolveAppend(stack: seq<string>, a: seq<string>, b: seq<string>, allowAboveRoot: bool)
    ensures Resolve(stack, a + b, allowAboveRoot)
         == Resolve(Resolve(stack, a, allowAboveRoot), b, allowAboveRoot)
    decreases |a|
  {
    if |a| > 0 {
      assert (a + b)[0] == a[0];
      assert (a + b)[1..] == a[1..] + b;
      var seg := a[0];
      var stack' :=
        if seg == "" || seg == "." then stack
        else if seg == ".." then
          if |stack| > 0 && stack[|stack| - 1] != ".." then stack[..|stack| - 1]
          else if allowAboveRoot then stack + [".."]
          else stack
        else stack + [seg];
      ResolveAppend(stack', a[1..], b, allowAboveRoot);
    } else {
      assert a + b == b;
    }
  }

  /** A segment that can survive normalisation: ".." or a plain segment. */
  predicate KeptSegment(seg: string) {
    seg != "" && seg != "." && '/' !in seg
  }

  /**
   * Resolution never produces an empty or "." segment, and in an absolute
   * path (where ".." above the root is dropped) it produces plain segments only.
   */
  lemma {:induction false} ResolveKeepsSegments(stack: seq<string>, segs: seq<string>, allowAboveRoot: bool)
    requires forall k | 0 <= k < |stack| :: KeptSegment(stack[k])
    requires !allowAboveRoot ==> forall k | 0 <= k < |stack| :: PlainSegment(stack[k])
    requires forall k | 0 <= k < |segs| :: '/' !in segs[k]
    ensures forall k | 0 <= k < |Resolve(stack, segs, allowAboveRoot)| ::
              KeptSegment(Resolve(stack, segs, allowAboveRoot)[k])
    ensures !allowAboveRoot ==>
              forall k | 0 <= k < |Resolve(stack, segs, allowAboveRoot)| ::
                PlainSegment(Resolve(stack, segs, allowAboveRoot)[k])
    decreases |segs|
  {
    if |segs| > 0 {
      var seg := segs[0];
      var stack' :=
        if seg == "" || seg == "." then stack
        else if seg == ".." then
          if |stack| > 0 && stack[|stack| - 1] != ".." then stack[..|stack| - 1]
          else if allowAboveRoot then stack + [".."]
          else stack
        else stack + [seg];
      assert Resolve(stack, segs, allowAboveRoot) == Resolve(stack', segs[1..], allowAboveRoot);
      assert forall k | 0 <= k < |stack'| :: KeptSegment(stack'[k]);
      assert !allowAboveRoot ==> forall k | 0 <= k < |stack'| :: PlainSegment(stack'[k]);
      ResolveKeepsSegments(stack', segs[1..], allowAboveRoot);
    } else {
      assert Resolve(stack, segs, allowAboveRoot) == stack;
    }
  }

  /** `path.normalize(p)`. */
  function Normalize(p: string): (r: string)
    ensures |r| > 0
    ensures |p| > 0 && p[0] == '/' <==> r[0] == '/'
  {
    if |p| == 0 then "."
    else
      var isAbsolute := p[0] == '/';
      var trailingSeparator := p[|p| - 1] == '/';
      var segs := Resolve([], Split(p), !isAbsolute);
      ResolveKeepsSegments([], Split(p), !isAbsolute);
      if |segs| == 0 then
        if isAbsolute then "/" else if trailingSeparator then "./" else "."
      else
        var body := JoinSegments(segs) + (if trailingSeparator then "/" else "");
        if isAbsolute then "/" + body
        else
          NonEmptyNotSlash(segs);
          body
  }

  /** Gluing kept segments gives a non-empty text that does not start with '/'. */
  lemma NonEmptyNotSlash(segs: seq<string>)
    requires |segs| > 0
    requires forall k | 0 <= k < |segs| :: KeptSegment(segs[k])
    ensures |JoinSegments(segs)| > 0 && JoinSegments(segs)[0] != '/'
  {
    assert segs[0][0] != '/';
    if |segs| > 1 {
      assert JoinSegments(segs) == segs[0] + "/" + JoinSegments(segs[1..]);
    }
  }

  /** `path.join(...parts)`: the non-empty parts joined with '/' and normalised. */
  function Join(parts: seq<string>): (r: string)
    ensures |r| > 0
    ensures |parts| > 0 && |parts[0]| > 0 ==> (r[0] == '/' <==> parts[0][0] == '/')
  {
    var joined := JoinNonEmpty(parts);
    if |joined| == 0 then "." else Normalize(joined)
  }

  function JoinNonEmpty(parts: seq<string>): (r: string)
    ensures |parts| > 0 && |parts[0]| > 0 ==> |r| > 0 && r[0] == parts[0][0]
    decreases |parts|
  {
    if |parts| == 0 then ""
    else
      var rest := JoinNonEmpty(parts[1..]);
      if |parts[0]| == 0 then rest
      else if |rest| == 0 then parts[0]
      else parts[0] + "/" + rest
  }

  /** An absolute path whose segments are all plain: "/srv/app", not "/", "/srv/" or "/a/../b". */
  predicate CleanAbsolute(dir: string) {
    |dir| > 1 && dir[0] == '/' &&
    var segs := Split(dir[1..]);
    forall k | 0 <= k < |segs| :: PlainSegment(segs[k])
  }

  /** The final component of a path, trailing separators ignored. */
  function Basename(p: string): (b: string)
    ensures '/' !in b
    decreases |p|
  {
    if |p| == 0 then ""
    else if p[|p| - 1] == '/' then Basename(p[..|p| - 1])
    else BaseOfUnslashed(p)
  }

  function BaseOfUnslashed(p: string): (b: string)
    ensures '/' !in b
    ensures |b| <= |p| && b == p[|p| - |b|..]
    ensures |b| < |p| ==> p[|p| - |b| - 1] == '/'
    decreases |p|
  {
    if |p| == 0 || p[|p| - 1] == '/' then ""
    else BaseOfUnslashed(p[..|p| - 1]) + [p[|p| - 1]]
  }

  /** Every character of the final component comes from the path. */
  lemma {:induction false} BasenameFrom(p: string)
    ensures forall k | 0 <= k < |Basename(p)| :: Basename(p)[k] in p
    decreases |p|
  {
    if |p| > 0 {
      if p[|p| - 1] == '/' {
        var q := p[..|p| - 1];
        BasenameFrom(q);
        forall k | 0 <= k < |Basename(q)|
          ensures Basename(q)[k] in p
        {
          var i :| 0 <= i < |q| && q[i] == Basename(q)[k];
          assert p[i] == q[i];
        }
      } else {
        var b := BaseOfUnslashed(p);
        forall k | 0 <= k < |b|
          ensures b[k] in p
        {
          assert b[k] == p[|p| - |b| + k];
        }
      }
    }
  }

  /** Index of the last '.' in `s`, if any. */
  function LastDot(s: string): (r: int)
    ensures -1 <= r < |s|
    ensures r >= 0 ==> s[r] == '.'
    ensures forall k | r < k < |s| :: s[k] != '.'
    decreases |s|
  {
    if |s| == 0 then -1
    else if s[|s| - 1] == '.' then |s| - 1
    else LastDot(s[..|s| - 1])
  }

  /**
   * `path.extname(p)`: from the last '.' of the final component to its end;
   * empty when that component has no '.', when its only '.' that could start
   * an extension is its first character (".bashrc"), and for "..".
   */
  function Extname(p: string): (r: string)
    ensures r == "" || (r[0] == '.' && '.' !in r[1..] && '/' !in r)
    ensures var b := Basename(p); |r| < |b| || r == b == ""
    ensures var b := Basename(p); |r| <= |b| && b[|b| - |r|..] == r
  {
    var b := Basename(p);
    var d := LastDot(b);
    if d <= 0 || b == ".." then "" else b[d..]
  }

  lemma {:induction false} SplitWithoutSeparator(s: string)
    requires '/' !in s
    ensures Split(s) == [s]
    decreases |s|
  {
    if |s| > 0 {
      SplitWithoutSeparator(s[1..]);
      assert [s[0]] + s[1..] == s;
    }
  }

  lemma {:induction false} JoinSegmentsAppend(a: seq<string>, b: seq<string>)
    requires |a| > 0 && |b| > 0
    ensures JoinSegments(a + b) == JoinSegments(a) + "/" + JoinSegments(b)
    decreases |a|
  {
    if |a| == 1 {
      assert a + b == [a[0]] + b;
    } else {
      assert (a + b)[1..] == a[1..] + b;
      JoinSegmentsAppend(a[1..], b);
    }
  }

  /** The segments of a clean absolute directory, after the leading root marker. */
  lemma CleanAbsoluteSegments(dir: string)
    requires CleanAbsolute(dir)
    ensures Split(dir) == [""] + Split(dir[1..])
    ensures Resolve([], Split(dir), false) == Split(dir[1..])
    ensures JoinSegments(Split(dir[1..])) == dir[1..]
  {
    assert dir == [dir[0]] + dir[1..];
    ResolvePlain([], Split(dir[1..]), false);
    assert [] + Split(dir[1..]) == Split(dir[1..]);
    JoinSplit(dir[1..]);
  }

  /** `dir + "/" + sub + "/" + name` split on '/': the directory's segments, then `sub`, then `name`'s segments. */
  lemma SplitUnder(dir: string, sub: string, name: string)
    requires CleanAbsolute(dir) && PlainSegment(sub)
    ensures Split(dir + "/" + sub + "/" + name) == [""] + Split(dir[1..]) + [sub] + Split(name)
  {
    SplitAtSeparator(dir + "/" + sub, name);
    SplitAtSeparator(dir, sub);
    SplitWithoutSeparator(sub);
    CleanAbsoluteSegments(dir);
  }

  /** An absolute path without a trailing separator normalises to its resolved segments under the root. */
  lemma NormalizeAbsolute(p: string)
    requires |p| > 0 && p[0] == '/' && p[|p| - 1] != '/'
    requires |Resolve([], Split(p), false)| > 0
    ensures Normalize(p) == "/" + JoinSegments(Resolve([], Split(p), false))
  {
  }

  lemma ResolveUnder(x: seq<string>, tail: seq<string>)
    requires forall k | 0 <= k < |x| :: PlainSegment(x[k])
    ensures Resolve([], [""] + x + tail, false) == Resolve(x, tail, false)
  {
    assert [""] + x + tail == ([""] + x) + tail;
    ResolveAppend([], [""] + x, tail, false);
    assert ([""] + x)[1..] == x;
    ResolvePlain([], x, false);
    assert [] + x == x;
  }

  /**
   * Joining a clean absolute directory, a plain sub-directory and a plain
   * file name is plain concatenation with '/': nothing is normalised away.
   */
  lemma JoinPlainName(dir: string, sub: string, name: string)
    requires CleanAbsolute(dir) && PlainSegment(sub) && PlainSegment(name)
    ensures Join([dir, sub, name]) == dir + "/" + sub + "/" + name
  {
    var p := dir + "/" + sub + "/" + name;
    var x := Split(dir[1..]);
    assert Join([dir, sub, name]) == Normalize(p) by {
      JoinNonEmptyThree(dir, sub, name);
    }
    assert Split(p) == [""] + x + [sub, name] by {
      SplitUnder(dir, sub, name);
      SplitWithoutSeparator(name);
    }
    assert Resolve([], Split(p), false) == x + [sub, name] by {
      ResolveUnder(x, [sub, name]);
      ResolvePlain(x, [sub, name], false);
    }
    assert Normalize(p) == "/" + JoinSegments(x + [sub, name]) by {
      NormalizeAbsolute(p);
    }
    assert JoinSegments(x + [sub, name]) == dir[1..] + "/" + sub + "/" + name by {
      JoinSegmentsAppend(x, [sub, name]);
      CleanAbsoluteSegments(dir);
    }
    assert dir == "/" + dir[1..];
  }

  lemma JoinNonEmptyThree(a: string, b: string, c: string)
    requires |a| > 0 && |b| > 0 && |c| > 0
    ensures JoinNonEmpty([a, b, c]) == a + "/" + b + "/" + c
  {
    assert [a, b, c][1..] == [b, c];
    assert [b, c][1..] == [c];
    assert [c][1..] == [];
    assert JoinNonEmpty([c]) == c;
    assert JoinNonEmpty([b, c]) == b + "/" + c;
    assert a + "/" + (b + "/" + c) == a + "/" + b + "/" + c;
  }

  lemma SplitParent(f: string)
    requires PlainSegment(f)
    ensures Split("../" + f) == ["..", f]
  {
    assert "../" + f == ".." + "/" + f;
    SplitAtSeparator("..", f);
    SplitWithoutSeparator("..");
    SplitWithoutSeparator(f);
  }

  /** ".." right after a plain segment cancels it. */
  lemma ResolveClimb(x: seq<string>, sub: string, f: string)
    requires PlainSegment(sub) && PlainSegment(f)
    ensures Resolve(x, [sub, "..", f], false) == x + [f]
  {
    assert [sub, "..", f][1..] == ["..", f];
    assert Resolve(x, [sub, "..", f], false) == Resolve(x + [sub], ["..", f], false);
    assert (x + [sub])[..|x + [sub]| - 1] == x;
    assert ["..", f][1..] == [f];
    assert Resolve(x + [sub], ["..", f], false) == Resolve(x, [f], false);
    ResolvePlain(x, [f], false);
  }

  /**
   * A file name that starts with "../" climbs out of the sub-directory:
   * the joined path lands directly in `dir`.
   */
  lemma JoinParentEscapes(dir: string, sub: string, f: string)
    requires CleanAbsolute(dir) && PlainSegment(sub) && PlainSegment(f)
    ensures Join([dir, sub, "../" + f]) == dir + "/" + f
  {
    var name := "../" + f;
    var p := dir + "/" + sub + "/" + name;
    JoinNonEmptyThree(dir, sub, name);
    var x := Split(dir[1..]);
    assert Split(p) == [""] + x + [sub, "..", f] by {
      SplitUnder(dir, sub, name);
      SplitParent(f);
    }
    assert Resolve([], Split(p), false) == x + [f] by {
      ResolveUnder(x, [sub, "..", f]);
      ResolveClimb(x, sub, f);
    }
    assert p[|p| - 1] == f[|f| - 1];
    NormalizeAbsolute(p);
    assert Join([dir, sub, name]) == "/" + JoinSegments(x + [f]);
    JoinSegmentsAppend(x, [f]);
    CleanAbsoluteSegments(dir);
    assert "/" + (dir[1..] + "/" + f) == dir + "/" + f by {
      assert dir == "/" + dir[1..];
    }
  }
}

=== FILE: progress_parser.dfy ===
/**
 * The progress reporting of processVideo (index.js:74-93): every line of
 * ffmpeg's diagnostic output may update two counters, `processedFrames`
 * from a `frame=` reading and `totalFrames` from an `fps=` reading, and a
 * percentage is reported after every line once both counters are positive.
 */
module ProgressParser {
  import opened Results
  import opened JsText

  const FrameKey: string := "frame="
  const RateKey: string := "fps="

  /** The character class of a capture group: `\d` or `[\d.]`. */
  datatype CharClass = Digits | DigitsAndDots

  predicate InClass(c: char, k: CharClass) {
    IsDigit(c) || (k == DigitsAndDots && c == '.')
  }

  /** Every character of `s` is in class `k`. */
  predicate InClassText(s: string, k: CharClass) {
    forall c | 0 <= c < |s| :: InClass(s[c], k)
  }

  /** `s` does not continue a run of class `k`: it is empty or starts outside the class. */
  predicate EndsRun(s: string, k: CharClass) {
    |s| == 0 || !InClass(s[0], k)
  }

  /** Length of the longest prefix of `s` within class `k`. */
  function ClassRun(s: string, k: CharClass): (n: nat)
    ensures n <= |s|
    ensures forall i | 0 <= i < n :: InClass(s[i], k)
    ensures n < |s| ==> !InClass(s[n], k)
  {
    if |s| == 0 || !InClass(s[0], k) then 0 else 1 + ClassRun(s[1..], k)
  }

  /**
   * The regular expression `key\s*(k+)` tried at position `i` only: the
   * captured text when it matches there. Both repetitions are greedy and
   * `\s` and `k` share no character, so the capture is the maximal run of
   * class `k` after the maximal run of white space.
   */
  function MatchAt(line: string, i: nat, key: string, k: CharClass): (r: Option<string>)
    ensures r.Some? ==> OccursAt(line, i, key)
    ensures r.Some? ==> |r.value| > 0 && InClassText(r.value, k)
  {
    if !OccursAt(line, i, key) then None else CaptureAt(line[i + |key|..], k)
  }

  /** `\s*(k+)` tried at the start of `t` only: the captured text when it matches there. */
  function CaptureAt(t: string, k: CharClass): (r: Option<string>)
    ensures r.Some? ==> |r.value| > 0 && InClassText(r.value, k)
  {
    var w := SpaceRun(t);
    var n := ClassRun(t[w..], k);
    if n == 0 then None else Some(t[w..w + n])
  }

  /** A match of the regular expression: where it starts and what group 1 captured. */
  datatype Match = Match(pos: nat, capture: string)

  /** What `key\s*(k+)` captures at each position 0..|line| of the line. */
  function Matches(line: string, key: string, k: CharClass): (ms: seq<Option<string>>)
    ensures |ms| == |line| + 1
    ensures forall j | 0 <= j <= |line| :: ms[j] == MatchAt(line, j, key, k)
  {
    seq(|line| + 1, j requires 0 <= j <= |line| => MatchAt(line, j, key, k))
  }

  /** The first position from `i` on where a match was found, and its capture. */
  function FirstSome(ms: seq<Option<string>>, i: nat): (r: Option<Match>)
    requires i <= |ms|
    ensures r.None? <==> forall j | i <= j < |ms| :: ms[j].None?
    ensures r.Some? ==> i <= r.value.pos < |ms| && ms[r.value.pos] == Some(r.value.capture)
    ensures r.Some? ==> forall j | i <= j < r.value.pos :: ms[j].None?
    decreases |ms| - i
  {
    if i == |ms| then None
    else
      match ms[i]
      case Some(cap) => Some(Match(i, cap))
      case None => FirstSome(ms, i + 1)
  }

  /**
   * `line.match(re)` for a regular expression `key\s*(k+)` without the `g`
   * flag: the leftmost position where the pattern matches, with its capture,
   * or nothing when it matches nowhere.
   */
  function Search(line: string, key: string, k: CharClass): (r: Option<Match>)
    ensures r.None? <==> forall j | 0 <= j <= |line| :: MatchAt(line, j, key, k).None?
    ensures r.Some? ==> r.value.pos <= |line| && MatchAt(line, r.value.pos, key, k) == Some(r.value.capture)
    ensures r.Some? ==> forall j | 0 <= j < r.value.pos :: MatchAt(line, j, key, k).None?
  {
    FirstSome(Matches(line, key, k), 0)
  }

  /**
   * The frame count a line reports, if any: `parseInt` of the digits that
   * `/frame=\s*(\d+)/` captures. The `includes('frame=')` guard before the
   * match is redundant, since every match contains the key.
   */
  function FrameReading(line: string): (r: Option<nat>)
    ensures r.Some? <==> exists j | 0 <= j <= |line| :: MatchAt(line, j, FrameKey, Digits).Some?
  {
    if !Includes(line, FrameKey) then None
    else
      match Search(line, FrameKey, Digits)
      case None => None
      case Some(m) => Some(DecimalValue(m.capture))
  }

  /**
   * The rate a line reports, if any: `parseInt` of the text that
   * `/fps=\s*([\d.]+)/` captures, that is its integer part, or NaN when the
   * capture starts with '.'.
   */
  function RateReading(line: string): (r: Option<Number>)
    ensures r.Some? <==> exists j | 0 <= j <= |line| :: MatchAt(line, j, RateKey, DigitsAndDots).Some?
  {
    if !Includes(line, RateKey) then None
    else
      match Search(line, RateKey, DigitsAndDots)
      case None => None
      case Some(m) => Some(ParseInt(m.capture))
  }

  /** What one line reports: a frame count, a rate, both or neither. */
  datatype Reading = Reading(frames: Option<nat>, rate: Option<Number>)

  /** Both regular expressions applied to one line. */
  function Read(line: string): (r: Reading)
    ensures !Includes(line, FrameKey) ==> r.frames.None?
    ensures !Includes(line, RateKey) ==> r.rate.None?
  {
    Reading(FrameReading(line), RateReading(line))
  }

  /** The lines' readings, in order. */
  function Parse(lines: seq<string>): (rs: seq<Reading>)
    ensures |rs| == |lines|
    ensures forall i | 0 <= i < |lines| :: rs[i] == Read(lines[i])
  {
    seq(|lines|, i requires 0 <= i < |lines| => Read(lines[i]))
  }

  /** The two counters the line handler closes over. */
  datatype State = State(processedFrames: nat, totalFrames: Number)

  /** Both counters start at 0. */
  const Initial: State := State(0, Int(0))

  /** The handler's effect on the counters: each reading overwrites its own counter. */
  function Apply(s: State, r: Reading): (a: State)
    ensures r.frames.Some? ==> a.processedFrames == r.frames.value
    ensures r.frames.None? ==> a.processedFrames == s.processedFrames
    ensures r.rate.Some? ==> a.totalFrames == r.rate.value
    ensures r.rate.None? ==> a.totalFrames == s.totalFrames
  {
    State(r.frames.GetOr(s.processedFrames), r.rate.GetOr(s.totalFrames))
  }

  /** The handler's effect of one line; a line with neither key leaves both counters alone. */
  function Feed(s: State, line: string): (r: State)
    ensures !Includes(line, FrameKey) && !Includes(line, RateKey) ==> r == s
  {
    Apply(s, Read(line))
  }

  /**
   * The percentage logged after a line: present once both counters are
   * positive, equal to processedFrames / totalFrames * 100, neither capped
   * at 100 nor kept from decreasing.
   */
  function Progress(s: State): (r: Option<real>)
    ensures r.Some? <==> s.processedFrames > 0 && s.totalFrames.Positive()
    ensures r.Some? ==> r.value > 0.0
    ensures r.Some? ==> s.totalFrames.Int? && r.value * (s.totalFrames.n as real) == (s.processedFrames as real) * 100.0
  {
    if s.totalFrames.Positive() && s.processedFrames > 0 then
      Some(s.processedFrames as real / s.totalFrames.n as real * 100.0)
    else None
  }

  /**
   * The counters after the handler has applied `rs`, in order. Neither
   * counter is ever computed: each is its starting value or a value some
   * reading carried.
   */
  function Replay(s: State, rs: seq<Reading>): (r: State)
    ensures r.processedFrames == s.processedFrames || exists i | 0 <= i < |rs| :: rs[i].frames == Some(r.processedFrames)
    ensures r.totalFrames == s.totalFrames || exists i | 0 <= i < |rs| :: rs[i].rate == Some(r.totalFrames)
    decreases |rs|
  {
    if |rs| == 0 then s
    else
      var r := Replay(Apply(s, rs[0]), rs[1..]);
      assert forall i | 0 <= i < |rs[1..]| :: rs[1..][i] == rs[i + 1];
      r
  }

  /** What the handler logs after each reading of `rs`: a percentage or nothing. */
  function Log(s: State, rs: seq<Reading>): (r: seq<Option<real>>)
    ensures |r| == |rs|
    decreases |rs|
  {
    if |rs| == 0 then []
    else
      var s' := Apply(s, rs[0]);
      [Progress(s')] + Log(s', rs[1..])
  }

  /** The counters after the handler has seen `lines`. */
  function Run(s: State, lines: seq<string>): State {
    Replay(s, Parse(lines))
  }

  /** What the handler logs for each of `lines`. */
  function Trace(s: State, lines: seq<string>): (r: seq<Option<real>>)
    ensures |r| == |lines|
  {
    Log(s, Parse(lines))
  }

  // ---------------------------------------------------------------------
  // Reference description: each counter holds the last reading of its kind.
  // ---------------------------------------------------------------------

  /** The frame count of the last reading that has one. */
  function LastFrame(rs: seq<Reading>): Option<nat>
    decreases |rs|
  {
    if |rs| == 0 then None
    else
      match rs[|rs| - 1].frames
      case Some(n) => Some(n)
      case None => LastFrame(rs[..|rs| - 1])
  }

  /** The rate of the last reading that has one. */
  function LastRate(rs: seq<Reading>): Option<Number>
    decreases |rs|
  {
    if |rs| == 0 then None
    else
      match rs[|rs| - 1].rate
      case Some(t) => Some(t)
      case None => LastRate(rs[..|rs| - 1])
  }

  /** Applying one more reading continues the replay where it stopped. */
  lemma {:induction false} ReplaySnoc(s: State, rs: seq<Reading>, r: Reading)
    ensures Replay(s, rs + [r]) == Apply(Replay(s, rs), r)
    decreases |rs|
  {
    if |rs| == 0 {
      assert [] + [r] == [r];
      assert [r][1..] == [];
    } else {
      assert (rs + [r])[0] == rs[0];
      assert (rs + [r])[1..] == rs[1..] + [r];
      ReplaySnoc(Apply(s, rs[0]), rs[1..], r);
    }
  }

  /**
   * The counters persist across lines: after any sequence of readings each
   * counter holds the last reading of its kind, or its initial 0 when
   * there was none.
   */
  lemma {:induction false} ReplayHoldsLastReadings(rs: seq<Reading>)
    ensures Replay(Initial, rs) == State(LastFrame(rs).GetOr(0), LastRate(rs).GetOr(Int(0)))
    decreases |rs|
  {
    if |rs| > 0 {
      var init := rs[..|rs| - 1];
      var last := rs[|rs| - 1];
      assert rs == init + [last];
      ReplayHoldsLastReadings(init);
      ReplaySnoc(Initial, init, last);
    }
  }

  /** The same on lines: after any stream, each counter holds the last reading of its kind in it, or 0. */
  lemma RunHoldsLastReadings(lines: seq<string>)
    ensures Run(Initial, lines) == State(LastFrame(Parse(lines)).GetOr(0), LastRate(Parse(lines)).GetOr(Int(0)))
  {
    ReplayHoldsLastReadings(Parse(lines));
  }

  /** The handler logs, after each reading, the progress of the counters at that point. */
  lemma {:induction false} LogIsProgressAfterEachReading(s: State, rs: seq<Reading>)
    ensures forall i | 0 <= i < |rs| :: Log(s, rs)[i] == Progress(Replay(s, rs[..i + 1]))
    decreases |rs|
  {
    if |rs| > 0 {
      var s' := Apply(s, rs[0]);
      LogIsProgressAfterEachReading(s', rs[1..]);
      forall i | 0 <= i < |rs|
        ensures Log(s, rs)[i] == Progress(Replay(s, rs[..i + 1]))
      {
        assert rs[..i + 1][0] == rs[0];
        assert rs[..i + 1][1..] == rs[1..][..i];
        if i > 0 {
          assert Log(s, rs)[i] == Log(s', rs[1..])[i - 1];
        } else {
          assert Replay(s, rs[..1]) == Replay(s', []);
        }
      }
    }
  }

  /** Parsing a prefix of the lines gives the prefix of the readings. */
  lemma ParsePrefix(lines: seq<string>, n: nat)
    requires n <= |lines|
    ensures Parse(lines[..n]) == Parse(lines)[..n]
  {
  }

  /**
   * A percentage is logged after line `i` exactly when the last frame count
   * and the last rate seen up to and including that line are both positive,
   * and it is then that frame count over that rate, times 100.
   */
  lemma ProgressReported(lines: seq<string>, i: nat)
    requires i < |lines|
    ensures Trace(Initial, lines)[i].Some? <==>
              LastFrame(Parse(lines[..i + 1])).GetOr(0) > 0 && LastRate(Parse(lines[..i + 1])).GetOr(Int(0)).Positive()
    ensures Trace(Initial, lines)[i].Some? ==>
              Trace(Initial, lines)[i].value
                == LastFrame(Parse(lines[..i + 1])).GetOr(0) as real
                   / LastRate(Parse(lines[..i + 1])).GetOr(Int(0)).n as real * 100.0
  {
    var rs := Parse(lines);
    var upTo := rs[..i + 1];
    LogIsProgressAfterEachReading(Initial, rs);
    ParsePrefix(lines, i + 1);
    ReplayHoldsLastReadings(upTo);
    assert Trace(Initial, lines)[i] == Progress(Replay(Initial, upTo));
  }

  // ---------------------------------------------------------------------
  // The shape of a match, and the reading of any line of that shape.
  // ---------------------------------------------------------------------

  lemma {:induction false} ClassRunStops(text: string, rest: string, k: CharClass)
    requires InClassText(text, k) && EndsRun(rest, k)
    ensures ClassRun(text + rest, k) == |text|
    decreases |text|
  {
    if |text| == 0 {
      assert text + rest == rest;
    } else {
      assert (text + rest)[1..] == text[1..] + rest;
      ClassRunStops(text[1..], rest, k);
    }
  }

  /** `\d` and `[\d.]` share no character with `\s`. */
  lemma ClassIsNotSpace(c: char, k: CharClass)
    requires InClass(c, k)
    ensures !IsSpace(c)
  {
  }

  /**
   * `\s*(k+)` captures `c` from a text made of white space, the non-empty
   * class run `c` and text that does not extend the run.
   */
  lemma CaptureOfShape(ws: string, c: string, rest: string, k: CharClass)
    requires AllSpace(ws) && |c| > 0 && InClassText(c, k) && EndsRun(rest, k)
    ensures CaptureAt(ws + c + rest, k) == Some(c)
  {
    var t := ws + c + rest;
    var cr := c + rest;
    assert t == ws + cr;
    ClassIsNotSpace(c[0], k);
    SpaceRunOfSpacePrefix(ws, cr);
    assert t[|ws|..] == cr;
    ClassRunStops(c, rest, k);
    assert t[|ws|..|ws| + |c|] == cr[..|c|] == c;
  }

  /** Conversely, a capture splits its text into white space, the capture, and text that does not extend it. */
  lemma CaptureSplits(t: string, k: CharClass) returns (ws: string, cap: string, rest: string)
    requires CaptureAt(t, k).Some?
    ensures CaptureAt(t, k) == Some(cap)
    ensures t == ws + cap + rest
    ensures AllSpace(ws) && EndsRun(rest, k)
  {
    var w := SpaceRun(t);
    var n := ClassRun(t[w..], k);
    ws, cap, rest := t[..w], t[w..w + n], t[w + n..];
    assert t == ws + cap + rest;
    if |rest| > 0 {
      assert rest[0] == t[w..][n];
    }
  }

  /**
   * `key\s*(k+)` matches at `i`, capturing `c`, whenever the line goes on
   * from `i` with the key, any white space, the non-empty class run `c` and
   * text that does not extend the run.
   */
  lemma MatchAtShape(line: string, i: nat, key: string, ws: string, c: string, rest: string, k: CharClass)
    requires i <= |line| && line[i..] == key + ws + c + rest
    requires AllSpace(ws) && |c| > 0 && InClassText(c, k) && EndsRun(rest, k)
    ensures MatchAt(line, i, key, k) == Some(c)
  {
    var tail := line[i..];
    var after := ws + c + rest;
    assert tail == key + after;
    assert line[i..i + |key|] == tail[..|key|] == key;
    assert line[i + |key|..] == tail[|key|..] == after;
    CaptureOfShape(ws, c, rest, k);
  }

  /**
   * Conversely, every match has that shape: from `i` on the line is the
   * key, white space, the capture, and text that does not extend it.
   */
  lemma MatchAtSplits(line: string, i: nat, key: string, k: CharClass) returns (ws: string, cap: string, rest: string)
    requires MatchAt(line, i, key, k).Some?
    ensures MatchAt(line, i, key, k) == Some(cap)
    ensures i <= |line| && line[i..] == key + ws + cap + rest
    ensures AllSpace(ws) && EndsRun(rest, k)
  {
    var t := line[i + |key|..];
    ws, cap, rest := CaptureSplits(t, k);
    assert line[i..] == line[i..i + |key|] + t;
    assert key + t == key + ws + cap + rest;
  }

  /** The first match from `i` on is the first from `pos` on when nothing matches in between. */
  lemma {:induction false} FirstSomeSkips(ms: seq<Option<string>>, i: nat, pos: nat)
    requires i <= pos <= |ms|
    requires forall j | i <= j < pos :: ms[j].None?
    ensures FirstSome(ms, i) == FirstSome(ms, pos)
    decreases pos - i
  {
    if i < pos {
      FirstSomeSkips(ms, i + 1, pos);
    }
  }

  /**
   * When the pattern matches nowhere before `pre` ends, the leftmost match
   * of `key\s*(k+)` in a line `pre + key + ws + c + rest` of the shape
   * above is the one at the key, capturing `c`. Earlier occurrences of the
   * key that do not match (`frame=N/A`) are skipped.
   */
  lemma SearchFindsFirstKey(pre: string, key: string, ws: string, c: string, rest: string, k: CharClass)
    requires forall j | 0 <= j < |pre| :: MatchAt(pre + key + ws + c + rest, j, key, k).None?
    requires AllSpace(ws) && |c| > 0 && InClassText(c, k) && EndsRun(rest, k)
    ensures Includes(pre + key + ws + c + rest, key)
    ensures Search(pre + key + ws + c + rest, key, k) == Some(Match(|pre|, c))
  {
    var line := pre + key + ws + c + rest;
    assert line[|pre|..] == key + ws + c + rest;
    MatchAtShape(line, |pre|, key, ws, c, rest, k);
    assert OccursAt(line, |pre|, key);
    var ms := Matches(line, key, k);
    assert forall j | 0 <= j < |pre| :: ms[j].None?;
    FirstSomeSkips(ms, 0, |pre|);
    assert ms[|pre|] == Some(c);
  }

  /**
   * A line whose first matching `frame=` is followed by optional white
   * space and digits reports the value of those digits, whatever comes
   * before and after.
   */
  lemma FrameReadingOf(pre: string, ws: string, digits: string, rest: string)
    requires forall j | 0 <= j < |pre| :: MatchAt(pre + FrameKey + ws + digits + rest, j, FrameKey, Digits).None?
    requires AllSpace(ws) && |digits| > 0 && AllDigits(digits) && EndsRun(rest, Digits)
    ensures FrameReading(pre + FrameKey + ws + digits + rest) == Some(DecimalValue(digits))
  {
    SearchFindsFirstKey(pre, FrameKey, ws, digits, rest, Digits);
  }

  /**
   * A line whose first matching `fps=` is followed by optional white space
   * and a run of digits and dots reports `parseInt` of that run, whatever
   * comes before and after.
   */
  lemma RateReadingOf(pre: string, ws: string, text: string, rest: string)
    requires forall j | 0 <= j < |pre| :: MatchAt(pre + RateKey + ws + text + rest, j, RateKey, DigitsAndDots).None?
    requires AllSpace(ws) && |text| > 0 && InClassText(text, DigitsAndDots) && EndsRun(rest, DigitsAndDots)
    ensures RateReading(pre + RateKey + ws + text + rest) == Some(ParseInt(text))
  {
    SearchFindsFirstKey(pre, RateKey, ws, text, rest, DigitsAndDots);
  }

  /** The `frame=` at the start of "frame=N/A frame=5" does not match: no digit follows it. */
  lemma NotAvailableDoesNotMatch(line: string)
    requires line == "frame=N/A frame=5"
    ensures MatchAt(line, 0, FrameKey, Digits).None?
  {
    var t := line[|FrameKey|..];
    assert t[0] == 'N';
    assert SpaceRun(t) == 0;
    assert t[0..][0] == 'N';
  }

  /** Nothing in "frame=N/A frame=5" before the second `frame=` starts with 'f' except position 0. */
  lemma NoKeyInsideNotAvailable(line: string, j: nat)
    requires line == "frame=N/A frame=5" && 1 <= j < 10
    ensures MatchAt(line, j, FrameKey, Digits).None?
  {
    assert line[j] != FrameKey[0];
    if j + |FrameKey| <= |line| {
      assert line[j..j + |FrameKey|][0] == line[j];
    }
  }

  /**
   * An earlier `frame=` that the pattern does not match is skipped:
   * "frame=N/A frame=5" reports 5 frames.
   */
  lemma UnmatchedKeySkipped()
    ensures FrameReading("frame=N/A frame=5") == Some(5)
  {
    var pre, line := "frame=N/A ", "frame=N/A frame=5";
    assert line == pre + FrameKey + "" + "5" + "";
    assert forall j | 0 <= j < |pre| :: MatchAt(line, j, FrameKey, Digits).None? by {
      NotAvailableDoesNotMatch(line);
      forall j | 1 <= j < |pre|
        ensures MatchAt(line, j, FrameKey, Digits).None?
      {
        NoKeyInsideNotAvailable(line, j);
      }
    }
    assert DecimalValue("5") == 5 by {
      assert "5"[..0] == "";
    }
    FrameReadingOf(pre, "", "5", "");
  }

  /** The key cannot start before the end of `pre` when its second character, which differs from its first, is not in `pre`. */
  lemma NoEarlierOccurrence(pre: string, key: string, tail: string)
    requires |key| >= 2 && key[1] != key[0] && key[1] !in pre
    ensures forall j | 0 <= j < |pre| :: !OccursAt(pre + key + tail, j, key)
  {
    var line := pre + key + tail;
    forall j | 0 <= j < |pre|
      ensures !OccursAt(line, j, key)
    {
      assert line[j + 1] != key[1] by {
        if j + 1 < |pre| {
          assert line[j + 1] == pre[j + 1];
        } else {
          assert line[j + 1] == key[0];
        }
      }
      if j + |key| <= |line| {
        assert line[j..j + |key|][1] == line[j + 1];
      }
    }
  }

  /** A line in which the key's second character never occurs holds no match of that key. */
  lemma NoMatchWithoutSecondChar(line: string, key: string)
    requires |key| >= 2 && key[1] !in line
    ensures !Includes(line, key)
  {
  }

  /** A letter that is neither white space nor in class `k` is absent from a key without it, white space and a class run. */
  lemma LetterAbsent(letter: char, key: string, ws: string, c: string, k: CharClass)
    requires letter !in key && !IsSpace(letter) && !InClass(letter, k)
    requires AllSpace(ws) && InClassText(c, k)
    ensures letter !in key + ws + c
  {
    var line := key + ws + c;
    forall i | 0 <= i < |line|
      ensures line[i] != letter
    {
      if i < |key| {
        assert line[i] == key[i];
      } else if i < |key| + |ws| {
        assert line[i] == ws[i - |key|];
      } else {
        assert line[i] == c[i - |key| - |ws|];
      }
    }
  }

  /** A line that starts with the key, white space and a class run matches at its start, capturing the run. */
  lemma KeyLine(key: string, ws: string, c: string, rest: string, k: CharClass)
    requires AllSpace(ws) && |c| > 0 && InClassText(c, k) && EndsRun(rest, k)
    ensures Includes(key + ws + c + rest, key)
    ensures Search(key + ws + c + rest, key, k) == Some(Match(0, c))
  {
    var line := key + ws + c + rest;
    assert line[0..] == line;
    MatchAtShape(line, 0, key, ws, c, rest, k);
    assert OccursAt(line, 0, key);
    var ms := Matches(line, key, k);
    assert ms[0] == Some(c);
  }

  lemma FrameLineReadsFrames(ws: string, digits: string)
    requires AllSpace(ws) && |digits| > 0 && AllDigits(digits)
    ensures FrameReading(FrameKey + ws + digits) == Some(DecimalValue(digits))
  {
    KeyLine(FrameKey, ws, digits, "", Digits);
    assert FrameKey + ws + digits + "" == FrameKey + ws + digits;
  }

  lemma FrameLineHasNoRate(ws: string, digits: string)
    requires AllSpace(ws) && AllDigits(digits)
    ensures RateReading(FrameKey + ws + digits) == None
  {
    LetterAbsent('p', FrameKey, ws, digits, Digits);
    NoMatchWithoutSecondChar(FrameKey + ws + digits, RateKey);
  }

  lemma RateLineReadsRate(ws: string, text: string)
    requires AllSpace(ws) && |text| > 0 && InClassText(text, DigitsAndDots)
    ensures RateReading(RateKey + ws + text) == Some(ParseInt(text))
  {
    KeyLine(RateKey, ws, text, "", DigitsAndDots);
    assert RateKey + ws + text + "" == RateKey + ws + text;
  }

  lemma RateLineHasNoFrame(ws: string, text: string)
    requires AllSpace(ws) && InClassText(text, DigitsAndDots)
    ensures FrameReading(RateKey + ws + text) == None
  {
    LetterAbsent('r', RateKey, ws, text, DigitsAndDots);
    NoMatchWithoutSecondChar(RateKey + ws + text, FrameKey);
  }

  /** "frame=N", with any white space after '=', sets the frame count to N and leaves the rate alone. */
  lemma FrameOnlyLine(s: State, ws: string, digits: string)
    requires AllSpace(ws) && |digits| > 0 && AllDigits(digits)
    ensures Feed(s, FrameKey + ws + digits) == State(DecimalValue(digits), s.totalFrames)
  {
    FrameLineReadsFrames(ws, digits);
    FrameLineHasNoRate(ws, digits);
  }

  /** "fps=T", with any white space after '=', sets the rate to parseInt(T) and leaves the frame count alone. */
  lemma RateOnlyLine(s: State, ws: string, text: string)
    requires AllSpace(ws) && |text| > 0 && InClassText(text, DigitsAndDots)
    ensures Feed(s, RateKey + ws + text) == State(s.processedFrames, ParseInt(text))
  {
    RateLineReadsRate(ws, text);
    RateLineHasNoFrame(ws, text);
  }

  /** Concatenation regrouped after its first operand. */
  lemma Regroup(h: string, a: string, b: string, c: string, d: string, e: string)
    ensures h + a + b + c + d + e == h + (a + b + c + d + e)
  {
  }

  lemma BothLineReadsFrames(ws1: string, digits: string, gap: string, ws2: string, text: string, rest: string)
    requires AllSpace(ws1) && |digits| > 0 && AllDigits(digits) && AllSpace(gap)
    ensures FrameReading(FrameKey + ws1 + digits + gap + RateKey + ws2 + text + rest) == Some(DecimalValue(digits))
  {
    var after := gap + RateKey + ws2 + text + rest;
    Regroup(FrameKey + ws1 + digits, gap, RateKey, ws2, text, rest);
    assert EndsRun(after, Digits) by {
      if |gap| > 0 {
        assert after[0] == gap[0];
      } else {
        assert after[0] == RateKey[0];
      }
    }
    KeyLine(FrameKey, ws1, digits, after, Digits);
  }

  lemma BothLineReadsRate(ws1: string, digits: string, gap: string, ws2: string, text: string, rest: string)
    requires AllSpace(ws1) && AllDigits(digits) && AllSpace(gap)
    requires AllSpace(ws2) && |text| > 0 && InClassText(text, DigitsAndDots) && EndsRun(rest, DigitsAndDots)
    ensures RateReading(FrameKey + ws1 + digits + gap + RateKey + ws2 + text + rest) == Some(ParseInt(text))
  {
    var pre := FrameKey + ws1 + digits + gap;
    assert FrameKey + ws1 + digits + gap + RateKey + ws2 + text + rest == pre + RateKey + ws2 + text + rest;
    assert 'p' !in pre by {
      LetterAbsent('p', FrameKey, ws1, digits, Digits);
      LetterAbsent('p', FrameKey + ws1 + digits, gap, "", Digits);
      assert FrameKey + ws1 + digits + gap + "" == pre;
    }
    NoEarlierOccurrence(pre, RateKey, ws2 + text + rest);
    assert pre + RateKey + (ws2 + text + rest) == pre + RateKey + ws2 + text + rest;
    RateReadingOf(pre, ws2, text, rest);
  }

  /**
   * One line can update both counters: a line of ffmpeg's usual shape
   * "frame= N fps= T ..." sets N frames and rate parseInt(T), whatever white
   * space surrounds the numbers and whatever follows the rate.
   */
  lemma FrameAndRateLine(s: State, ws1: string, digits: string, gap: string, ws2: string, text: string, rest: string)
    requires AllSpace(ws1) && |digits| > 0 && AllDigits(digits) && AllSpace(gap)
    requires AllSpace(ws2) && |text| > 0 && InClassText(text, DigitsAndDots) && EndsRun(rest, DigitsAndDots)
    ensures Feed(s, FrameKey + ws1 + digits + gap + RateKey + ws2 + text + rest) == State(DecimalValue(digits), ParseInt(text))
  {
    BothLineReadsFrames(ws1, digits, gap, ws2, text, rest);
    BothLineReadsRate(ws1, digits, gap, ws2, text, rest);
  }

  // ---------------------------------------------------------------------
  // Concrete diagnostic streams.
  // ---------------------------------------------------------------------

  /** A fractional rate counts by its integer part: "fps=29.97" sets the rate to 29. */
  lemma FractionalRateTruncates(s: State)
    ensures Feed(s, RateKey + "29.97") == State(s.processedFrames, Int(29))
  {
    assert "29.97" == "29" + ".97";
    ParseIntReadsLeadingDigits("29", ".97");
    assert DecimalValue("29") == 29 by {
      assert "29"[..1] == "2";
    }
    RateOnlyLine(s, "", "29.97");
    assert RateKey + "" + "29.97" == RateKey + "29.97";
  }

  /** What is logged for three readings, step by step. */
  lemma LogOfThree(s: State, rs: seq<Reading>)
    requires |rs| == 3
    ensures var s1 := Apply(s, rs[0]);
            var s2 := Apply(s1, rs[1]);
            Log(s, rs) == [Progress(s1), Progress(s2), Progress(Apply(s2, rs[2]))]
  {
    var s1 := Apply(s, rs[0]);
    var s2 := Apply(s1, rs[1]);
    var t1 := rs[1..];
    var t2 := t1[1..];
    assert t1[0] == rs[1] && t2[0] == rs[2] && |t2[1..]| == 0;
    assert Log(s2, t2) == [Progress(Apply(s2, rs[2]))] + Log(Apply(s2, rs[2]), t2[1..]);
    assert Log(s1, t1) == [Progress(s2)] + Log(s2, t2);
  }

  /** The trace of three lines, step by step. */
  lemma TraceOfThree(s: State, a: string, b: string, c: string)
    ensures Trace(s, [a, b, c])
         == [Progress(Feed(s, a)), Progress(Feed(Feed(s, a), b)), Progress(Feed(Feed(Feed(s, a), b), c))]
  {
    var rs := Parse([a, b, c]);
    assert rs[0] == Read(a) && rs[1] == Read(b) && rs[2] == Read(c);
    LogOfThree(s, rs);
  }

  /** A rate line whose capture is all digits sets the rate to their value. */
  lemma DigitRateLine(s: State, ws: string, rate: string)
    requires AllSpace(ws) && |rate| > 0 && AllDigits(rate)
    ensures Feed(s, RateKey + ws + rate) == State(s.processedFrames, Int(DecimalValue(rate)))
  {
    RateOnlyLine(s, ws, rate);
    ParseIntReadsLeadingDigits(rate, "");
    assert rate + "" == rate;
  }

  /**
   * A rate whose capture starts with '.' parses to NaN, so no percentage is
   * logged after it, even though frames were counted and a positive rate
   * was seen before.
   */
  lemma NaNRateSuppressesProgress(ws: string, rate: string, frames: string, dotted: string)
    requires AllSpace(ws)
    requires |rate| > 0 && AllDigits(rate) && DecimalValue(rate) > 0
    requires |frames| > 0 && AllDigits(frames) && DecimalValue(frames) > 0
    requires |dotted| > 0 && dotted[0] == '.' && InClassText(dotted, DigitsAndDots)
    ensures var t := Trace(Initial, [RateKey + ws + rate, FrameKey + ws + frames, RateKey + ws + dotted]);
            t[1].Some? && t[2].None?
  {
    var l1, l2, l3 := RateKey + ws + rate, FrameKey + ws + frames, RateKey + ws + dotted;
    var s1 := Feed(Initial, l1);
    var s2 := Feed(s1, l2);
    var s3 := Feed(s2, l3);
    assert s2 == State(DecimalValue(frames), Int(DecimalValue(rate))) by {
      DigitRateLine(Initial, ws, rate);
      FrameOnlyLine(s1, ws, frames);
    }
    assert s3.totalFrames == NaN by {
      RateOnlyLine(s2, ws, dotted);
    }
    TraceOfThree(Initial, l1, l2, l3);
  }

  /** For a fixed positive rate, the percentage grows with the frame count and passes 100 above the rate. */
  lemma PercentOrder(h: nat, l: nat, t: nat)
    requires 0 < t < h && 0 < l < h
    ensures h as real / t as real * 100.0 > 100.0
    ensures l as real / t as real * 100.0 < h as real / t as real * 100.0
  {
    var tr := t as real;
    assert h as real / tr > 1.0;
    assert l as real / tr < h as real / tr;
  }

  /**
   * The logged percentage is neither capped at 100 nor kept from going
   * down: with a positive rate, a frame count above the rate logs more than
   * 100%, and a smaller frame count on a later line logs less than before.
   */
  lemma ProgressNeitherCappedNorMonotone(ws: string, rate: string, hi: string, lo: string)
    requires AllSpace(ws)
    requires |rate| > 0 && AllDigits(rate) && DecimalValue(rate) > 0
    requires |hi| > 0 && AllDigits(hi) && DecimalValue(hi) > DecimalValue(rate)
    requires |lo| > 0 && AllDigits(lo) && 0 < DecimalValue(lo) < DecimalValue(hi)
    ensures var t := Trace(Initial, [RateKey + ws + rate, FrameKey + ws + hi, FrameKey + ws + lo]);
            && t[0].None? && t[1].Some? && t[2].Some?
            && t[1].value > 100.0
            && t[2].value < t[1].value
  {
    var l1, l2, l3 := RateKey + ws + rate, FrameKey + ws + hi, FrameKey + ws + lo;
    var t, h, l := DecimalValue(rate), DecimalValue(hi), DecimalValue(lo);
    var s1 := Feed(Initial, l1);
    var s2 := Feed(s1, l2);
    var s3 := Feed(s2, l3);
    assert s1 == State(0, Int(t)) by {
      DigitRateLine(Initial, ws, rate);
    }
    assert s2 == State(h, Int(t)) by {
      FrameOnlyLine(s1, ws, hi);
    }
    assert s3 == State(l, Int(t)) by {
      FrameOnlyLine(s2, ws, lo);
    }
    PercentOrder(h, l, t);
    TraceOfThree(Initial, l1, l2, l3);
  }
}

=== FILE: registry.dfy ===
/**
 * The font table and the accepted subtitle formats of the job pipeline
 * (index.js:49-68): which font names resolve to which font file, and which
 * uploaded subtitle file names pass the format check.
 */
module Registry {
  import opened Results
  import opened JsText
  import NodePath

  /** Font name, as chosen in the upload form, to font file name. */
  const FontFiles: map<string, string> := map[
    "Arial-Bold" := "Arial-Bold.ttf",
    "Juventus Fans Bold" := "Juventus-Fans-Bold.ttf",
    "Tungsten-Bold" := "Tungsten-Bold.ttf"
  ]

  /** Font files are looked up relative to this directory. */
  const FontDirectory: string := "fonts/"

  const UnsupportedFontMessage: string := "Selected font is not supported."
  const UnsupportedFormatMessage: string := "Selected subtitle format is not supported."

  /** Subtitle extensions accepted after lower-casing, leading dot included. */
  const AcceptedSubtitleFormats: seq<string> := [".srt", ".ass"]

  /**
   * The font path a font name resolves to. Exactly the three names of the
   * table resolve, each to its own file under `fonts/`.
   */
  function ResolveFont(name: string): (r: Option<string>)
    ensures r.Some? <==> name == "Arial-Bold" || name == "Juventus Fans Bold" || name == "Tungsten-Bold"
    ensures name == "Arial-Bold" ==> r == Some(FontDirectory + "Arial-Bold.ttf")
    ensures name == "Juventus Fans Bold" ==> r == Some(FontDirectory + "Juventus-Fans-Bold.ttf")
    ensures name == "Tungsten-Bold" ==> r == Some(FontDirectory + "Tungsten-Bold.ttf")
  {
    if name in FontFiles then Some(FontDirectory + FontFiles[name]) else None
  }

  // ---------------------------------------------------------------------
  // The font lookup as written: a property read on an object literal.
  // ---------------------------------------------------------------------

  /** What reading a property of the font table's object literal can yield. */
  datatype JsValue = Undefined | Str(s: string) | NativeFunction(fname: string) | ObjectPrototype

  /**
   * The methods every object literal inherits from `Object.prototype`, each
   * with the name of the function object it holds.
   */
  const InheritedMethods: map<string, string> := map[
    "constructor" := "Object",
    "hasOwnProperty" := "hasOwnProperty",
    "isPrototypeOf" := "isPrototypeOf",
    "propertyIsEnumerable" := "propertyIsEnumerable",
    "toLocaleString" := "toLocaleString",
    "toString" := "toString",
    "valueOf" := "valueOf",
    "__defineGetter__" := "__defineGetter__",
    "__defineSetter__" := "__defineSetter__",
    "__lookupGetter__" := "__lookupGetter__",
    "__lookupSetter__" := "__lookupSetter__"
  ]

  /** Every name `fontMapping[name]` finds on the prototype chain rather than in the table. */
  predicate Inherited(name: string) {
    name in InheritedMethods || name == "__proto__"
  }

  /** `fontMapping[name]`: own properties first, then those of `Object.prototype`. */
  function FontMappingLookup(name: string): JsValue {
    if name in FontFiles then Str(FontFiles[name])
    else if name == "__proto__" then ObjectPrototype
    else if name in InheritedMethods then NativeFunction(InheritedMethods[name])
    else Undefined
  }

  /** JavaScript truthiness of the values above. */
  predicate Truthy(v: JsValue) {
    match v
    case Undefined => false
    case Str(s) => s != ""
    case NativeFunction(_) => true
    case ObjectPrototype => true
  }

  /** `String(v)`, as a template literal converts it (V8's text for built-in functions). */
  function TemplateText(v: JsValue): string {
    match v
    case Undefined => "undefined"
    case Str(s) => s
    case NativeFunction(n) => "function " + n + "() { [native code] }"
    case ObjectPrototype => "[object Object]"
  }

  /**
   * The font check as written: the job goes on whenever `fontMapping[name]`
   * is truthy, with `fonts/${value}` as the font path. Every inherited
   * name passes as well as the three table names.
   */
  function ResolveFontAsWritten(name: string): (r: Option<string>)
    ensures r.Some? <==> name in FontFiles || Inherited(name)
    ensures name in FontFiles ==> r == Some(FontDirectory + FontFiles[name])
    ensures Inherited(name) ==> r.Some? && r.value != FontDirectory + "Arial-Bold.ttf"
  {
    var v := FontMappingLookup(name);
    if Truthy(v) then Some(FontDirectory + TemplateText(v)) else None
  }

  /** Away from the inherited names, the lookup as written and the table agree. */
  lemma AsWrittenAgreesWithTable(name: string)
    requires !Inherited(name)
    ensures ResolveFontAsWritten(name) == ResolveFont(name)
  {
  }

  /** Every inherited name passes the font check as written, yet names no font of the table. */
  lemma InheritedNamesPassFontCheck(name: string)
    requires Inherited(name)
    ensures ResolveFontAsWritten(name).Some?
    ensures ResolveFont(name).None?
  {
  }

  // ---------------------------------------------------------------------
  // Subtitle formats.
  // ---------------------------------------------------------------------

  /** `acceptedSubtitleFormats.includes(path.extname(fileName).toLowerCase())`. */
  predicate SubtitleAccepted(fileName: string)
    ensures SubtitleAccepted(fileName) ==> |NodePath.Extname(fileName)| == 4 && NodePath.Extname(fileName)[0] == '.'
  {
    ToLower(NodePath.Extname(fileName)) in AcceptedSubtitleFormats
  }

  /**
   * A subtitle file name is accepted exactly when its final component ends,
   * in any letter case, in ".srt" or ".ass" and has at least one character
   * before that dot (a bare ".srt" is a hidden file without extension).
   */
  lemma {:induction false} SubtitleAcceptedIffSuffix(fileName: string)
    ensures SubtitleAccepted(fileName) <==>
      var b := NodePath.Basename(fileName);
      |b| >= 5 && ToLower(b[|b| - 4..]) in AcceptedSubtitleFormats
  {
    var b := NodePath.Basename(fileName);
    var d := NodePath.LastDot(b);
    if SubtitleAccepted(fileName) {
      var ext := NodePath.Extname(fileName);
      assert |ToLower(ext)| == 4;
      assert d > 0 && ext == b[d..];
      assert d == |b| - 4;
    }
    if |b| >= 5 && ToLower(b[|b| - 4..]) in AcceptedSubtitleFormats {
      var tail := b[|b| - 4..];
      var lowered := ToLower(tail);
      assert ToLowerChar(tail[0]) == lowered[0] == '.';
      assert b[|b| - 4] == '.';
      forall k | |b| - 4 < k < |b|
        ensures b[k] != '.'
      {
        assert ToLowerChar(tail[k - (|b| - 4)]) == lowered[k - (|b| - 4)] != '.';
      }
      assert d == |b| - 4;
    }
  }

  lemma BasenameOfPlainName(fileName: string)
    requires '/' !in fileName
    ensures NodePath.Basename(fileName) == fileName
  {
  }

  /**
   * A plain file name made of a non-empty stem and an extension that
   * lower-cases to ".srt" or ".ass" is accepted, whatever its letter case.
   */
  lemma AcceptedAnyCase(stem: string, ext: string)
    requires |stem| > 0 && '/' !in stem && '/' !in ext
    requires |ext| == 4 && ToLower(ext) in AcceptedSubtitleFormats
    ensures SubtitleAccepted(stem + ext)
  {
    var name := stem + ext;
    SubtitleAcceptedIffSuffix(name);
    BasenameOfPlainName(name);
    assert name[|name| - 4..] == ext;
  }

  /** A plain file name whose last four characters lower-case to anything but ".srt" or ".ass" is rejected. */
  lemma RejectedOtherSuffix(stem: string, ext: string)
    requires '/' !in stem && '/' !in ext
    requires |ext| == 4 && ToLower(ext) !in AcceptedSubtitleFormats
    ensures !SubtitleAccepted(stem + ext)
  {
    var name := stem + ext;
    SubtitleAcceptedIffSuffix(name);
    BasenameOfPlainName(name);
    assert name[|name| - 4..] == ext;
  }

  /** Upper-case ".SRT" passes the check. */
  lemma UpperCaseAccepted()
    ensures SubtitleAccepted("SUBS" + ".SRT")
  {
    var upper := ".SRT";
    assert ToLower(upper)[0] == '.' && ToLower(upper)[1] == 's';
    assert ToLower(upper)[2] == 'r' && ToLower(upper)[3] == 't';
    assert ToLower(upper) == ".srt";
    AcceptedAnyCase("SUBS", upper);
  }

  /** ".txt" fails the check. */
  lemma TextRejected()
    ensures !SubtitleAccepted("subs" + ".txt")
  {
    var txt := ".txt";
    assert ToLower(txt)[1] == 't';
    RejectedOtherSuffix("subs", txt);
  }

  /** A name without a dot, such as "subs", has no extension and fails the check. */
  lemma NoExtensionRejected(name: string)
    requires '.' !in name
    ensures !SubtitleAccepted(name)
  {
    NodePath.BasenameFrom(name);
    assert '.' !in NodePath.Basename(name);
    assert NodePath.Extname(name) == "";
  }

  /** A bare ".srt" has no extension in the sense of `path.extname`, so it fails the check. */
  lemma HiddenSrtRejected()
    ensures !SubtitleAccepted(".srt")
  {
    SubtitleAcceptedIffSuffix(".srt");
  }
}

=== FILE: results.dfy ===
/** Optional values and success-or-error results shared by every module of the model. */
module Results {

  datatype Option<+T> = None | Some(value: T) {

    /** The wrapped value, or `default` when there is none. */
    function GetOr(default: T): T {
      match this
      case Some(v) => v
      case None => default
    }
  }

  /** The outcome of a step that either produces a value or fails with an error. */
  datatype Result<+T, +E> = Success(value: T) | Failure(error: E)
}

=== FILE: upload_route.dfy ===
/**
 * The admission logic of the `/upload` route (index.js:152-163): a request
 * without both uploads is answered with 400; otherwise the font and the
 * output name fall back to their defaults when missing or empty, and the
 * task is pushed onto the queue.
 */
module UploadRoute {
  import opened Results
  import opened Job
  import Registry
  import NodePath

  /** The parts of a multipart upload request the route reads. */
  datatype Request = Request(
    video: Option<UploadedFile>,
    subtitles: Option<UploadedFile>,
    font: Option<string>,
    outputFileName: Option<string>,
    email: Option<string>)

  /** The route's immediate answer: an error response, or a task handed to the queue. */
  datatype Admission = Rejected(status: nat, body: string) | Enqueued(task: Task)

  const DefaultFont: string := "Arial-Bold"
  const DefaultOutputFileName: string := "output.mp4"
  const MissingUploadsMessage: string := "Please upload both video and subtitles."

  /** A form field JavaScript treats as false: absent or the empty string. */
  predicate Falsy(field: Option<string>) {
    field.None? || field.value == ""
  }

  /** `field || fallback`. */
  function OrDefault(field: Option<string>, fallback: string): string {
    if Falsy(field) then fallback else field.value
  }

  /**
   * The route's decision. Missing either upload answers 400 with a fixed
   * message and enqueues nothing; otherwise both uploads and the e-mail
   * pass through untouched, and font and output name are the request's
   * own unless falsy, in which case they are the defaults; never empty.
   */
  function Admit(req: Request): (a: Admission)
    ensures a.Rejected? <==> req.video.None? || req.subtitles.None?
    ensures a.Rejected? ==> a.status == 400 && a.body == MissingUploadsMessage
    ensures a.Enqueued? ==>
              && a.task.videoFile == req.video.value
              && a.task.subtitlesFile == req.subtitles.value
              && a.task.userEmail == req.email
    ensures a.Enqueued? ==> a.task.selectedFont != "" && a.task.outputFileName != ""
    ensures a.Enqueued? && !Falsy(req.font) ==> a.task.selectedFont == req.font.value
    ensures a.Enqueued? && Falsy(req.font) ==> a.task.selectedFont == DefaultFont
    ensures a.Enqueued? && !Falsy(req.outputFileName) ==> a.task.outputFileName == req.outputFileName.value
    ensures a.Enqueued? && Falsy(req.outputFileName) ==> a.task.outputFileName == DefaultOutputFileName
  {
    if req.video.None? || req.subtitles.None? then
      Rejected(400, MissingUploadsMessage)
    else
      Enqueued(Task(
        req.video.value,
        req.subtitles.value,
        OrDefault(req.font, DefaultFont),
        OrDefault(req.outputFileName, DefaultOutputFileName),
        req.email))
  }

  /** The request that spells out every field of a task. */
  function RequestFor(task: Task): Request {
    Request(Some(task.videoFile), Some(task.subtitlesFile), Some(task.selectedFont), Some(task.outputFileName), task.userEmail)
  }

  /**
   * Defaulting is idempotent: resubmitting exactly what a task holds
   * enqueues that same task again.
   */
  lemma AdmitRoundTrip(req: Request)
    requires Admit(req).Enqueued?
    ensures Admit(RequestFor(Admit(req).task)) == Admit(req)
  {
  }

  /**
   * A request that names no font and whose uploads are staged, with a
   * subtitle file the format check accepts, runs ffmpeg with Arial Bold
   * and writes `output.mp4` under `uploads` when no output name was given.
   */
  lemma DefaultsReachFfmpeg(req: Request, serverDir: string)
    requires req.video.Some? && req.subtitles.Some?
    requires Falsy(req.font) && Falsy(req.outputFileName)
    requires Registry.SubtitleAccepted(req.subtitles.value.name)
    requires NodePath.CleanAbsolute(serverDir)
    ensures var o := ProcessVideo(Admit(req).task, serverDir, Moved, Moved);
            && o.result.Success?
            && o.result.value.fontPath == Registry.FontDirectory + "Arial-Bold.ttf"
            && o.result.value.outputPath == serverDir + "/uploads/" + DefaultOutputFileName
  {
    var task := Admit(req).task;
    LaunchIffAllChecksPass(task, serverDir, Moved, Moved);
    PlainOutputNameStaysInUploads(serverDir, DefaultOutputFileName);
  }

  /**
   * An upload with an unsupported font is admitted by the route and
   * rejected only by the job, after both files have been staged.
   */
  lemma UnsupportedFontFailsInJob(req: Request, serverDir: string)
    requires req.video.Some? && req.subtitles.Some?
    requires !Falsy(req.font) && Registry.ResolveFont(req.font.value).None?
    ensures Admit(req).Enqueued?
    ensures ProcessVideo(Admit(req).task, serverDir, Moved, Moved)
         == Outcome([MoveVideo, MoveSubtitles, CheckFont], Failure(UnsupportedFont))
  {
    FontCheckedBeforeFormat(Admit(req).task, serverDir);
  }
}
